=== FILE: README.md ===
# 3D Free Kick Simulator — a Dafny model of the frame update

The simulator is a single raylib program. The player aims a kick by setting its strength, elevation angle and spin, and then kicks. The ball flies under gravity, the Magnus force of its spin and quadratic air drag. It bounces on the ground and either enters the goal, comes to rest or leaves the field. After that the player restarts.

All game logic lives in the body of the main loop of `src/main.cpp`. This project models that per-frame update as a pure function:

    Step(lib, ctx, input, dt) -> ctx'

Its parts:

- `ctx` is the context the loop carries from one frame to the next: the ball, the kick parameters, the game state (AIMING, SIMULATING or RESET), and the message with its timer.
- `input` is the set of logical keys of the frame.
- `dt` is the frame time.
- `lib` bundles the library routines whose bodies are not part of this model: `sqrtf` inside `Vector3Length`, `sinf`, `cosf` and `CheckCollisionBoxSphere`. They are uninterpreted functions. The facts a property needs about them are ghost predicates (`SqrtSpec`, `TrigSpec`), required only by the lemmas that use them.

Modules:

- `Vectors` (vectors.dfy): the raymath vector operations. Floats are modelled as reals.
- `MathLib` (mathlib.dfy): the library routines, plus `Vector3Length` and `Vector3Normalize` written as raymath defines them on top of the abstract square root.
- `Physics` (physics.dfy): `CalculateMagnusForce`, `CalculateDragForce`, the acceleration, the semi-implicit Euler step, the ground response and the three conditions that end a flight.
- `Game` (game.dfy): the aiming controls, the kick, the message timer, the three state handlers and `Step`.
- `Rounds` (rounds.dfy): runs of many frames (`Run` folds `Step` over a sequence of frames) and the properties that hold across them.
- `Livelock` (livelock.dfy): an explicit run from start-up that reaches the hopping state of `Rounds`.

Some behaviour of the code is modelled exactly as written:

- The out-of-bounds test is asymmetric. It checks `|x| > 50` and `z > 50`, but puts no limit on negative `z`.
- Spin is clamped upper bound first, while strength and angle are clamped lower bound first. The two orders are proved to agree.
- The message is cleared in the first frame whose timer is not positive at the start. That is one frame after the timer runs out, not when it reaches zero. The timer is not clamped at zero and may go negative; only a goal sets it (to 3 seconds), and enter does not touch it.
- The ground response fires in every frame in which the ball is below resting height. There is no latch.

One consequence of the last point is proved in `Rounds.HoppingNeverStops`. At a steady 30 frames per second, a ball hopping in place with an upward speed between 0.1 and 0.16 is pulled below the ground in each frame. The bounce then sends it up again at a speed in the same range. The stop check therefore never fires, and the game never leaves SIMULATING. This state is reachable from start-up, as `Livelock.LivelockFromStartUp` proves. In a first frame of length 0 space is pressed, and the default kick (strength 50, angle 15°, no spin) leaves at speed 50. A frame of 0.9 seconds follows. Drag at that speed is -0.5·v. Divided by the mass 0.45 and applied for 0.9 seconds, it cancels the launch velocity exactly and leaves only 0.9·g, and the ball bounces straight up at the spawn point at 6.174. A frame of 6.354/10.6470728 seconds then brings it back below the ground, falling at 0.18, and it bounces up at 0.126. From there a steady 30 frames per second keeps the game in SIMULATING for ever. These lemmas assume an exact square root, the usual facts about sine and cosine stated in `TrigSpec` (sin² + cos² = 1, sin 0 = 0, cos 0 = 1, both non-negative and sine increasing on [0, π/2]), and that the collision test reports no contact between the goal box and a ball at the spawn point.

## Model

| member | source | states |
|---|---|---|
| Game.Step | src/main.cpp:115-255 | The state changes only along AIMING→SIMULATING, SIMULATING→RESET and RESET→AIMING. Each edge is taken exactly when its trigger holds: space; a goal, stop or out-of-bounds after the move; enter. A goal sets "GOAL!!!", a 3-second timer and RESET. Otherwise the message is cleared when the timer was not positive, and otherwise the timer drops by exactly dt. Consistency of the context is preserved. |
| Game.AdjustKick | src/main.cpp:133-160 | For any starting values and any dt, strength ends in [10,100], angle in [0,45] and spin in [-50,50]. Each value is its old value moved by rate × dt in the net key direction and then clamped. With no aiming key held, an in-range kick is unchanged. For an in-range kick and `dt >= 0`, holding only the increase key never lowers a value. |
| Game.Nudge | src/main.cpp:133-136 | The up key adds rate × dt and then the down key subtracts it. The net change is rate × dt times +1, -1 or 0, and holding both keys or neither leaves the value as it was. The angle and spin keys (lines 143-146 and 153-156) are the same shape. |
| Game.ClampLowFirst | src/main.cpp:137-150 | The strength and angle clamps test the lower bound first. For a non-empty range the result lies in the range, a value already inside is kept, and a value outside goes to the nearer bound. |
| Game.ClampHighFirst | src/main.cpp:157-160 | The spin clamp tests the upper bound first. For a non-empty range it gives the same result as the lower-bound-first clamp used for strength and angle. |
| Game.Aim | src/main.cpp:128-179 | The kick parameters are adjusted. If space is pressed, the state becomes SIMULATING and the ball is launched with the parameters adjusted in this frame. Otherwise the ball and the state are unchanged. The message and the timer are untouched. |
| Game.Launch | src/main.cpp:163-177 | The ball is marked kicked, with vx = 0, vy = sin(angle) × strength, vz = cos(angle) × strength and angular velocity (0, spin, 0). Its position is kept. A flat kick leaves at (0, 0, strength). |
| Game.LaunchSpeedIsStrength | src/main.cpp:168-171 | Given the facts about sine and cosine in `TrigSpec` (among them sin² + cos² = 1) and an exact square root, the launch speed equals the kick strength. |
| Game.LaunchWithinLimits | src/main.cpp:141-174 | Because of the clamps, a kick never goes downwards or backwards. Its forward speed is at most 100 and its upward speed at most sin(45°) × 100. |
| Game.TickMessage | src/main.cpp:117-124 | A positive timer drops by dt and the message stays. Otherwise the message is cleared and the timer is left as it is. |
| Game.Simulate | src/main.cpp:181-236 | A kicked ball moves one frame and ends at or above resting height. The state becomes RESET exactly when the moved ball is in the goal, stopped or out of bounds. Only a goal sets the message and the timer. An unkicked ball leaves the context unchanged. The kick parameters never change. |
| Game.Restart | src/main.cpp:238-254 | With enter, the ball and the kick are exactly the start-up values: position (0,0.5,0), zero vectors, not kicked, kick (50,15,0), state AIMING. The message and the timer carry on. Without enter nothing changes. |
| Physics.MagnusForce | src/main.cpp:37-44 | The Magnus force is zero when the spin or the velocity is zero. |
| Vectors.Cross | src/main.cpp:43 | The cross product of the spin and the velocity is zero when either factor is zero. |
| Vectors.CrossOrthogonal | src/main.cpp:43 | The cross product is orthogonal to both of its factors. |
| Physics.MagnusDoesNoWork | src/main.cpp:37-44 | The Magnus force is perpendicular to both the velocity and the spin axis. |
| Physics.DragForce | src/main.cpp:47-59 | Drag is the zero vector when the speed is not positive, in particular for a ball at rest. |
| Physics.DragOpposesMotion | src/main.cpp:47-59 | For a moving ball, drag equals -k·\|v\|·v, that is magnitude k·\|v\|² against the motion. It never has a positive component along the velocity. |
| Physics.Acceleration | src/main.cpp:185-196 | (m·g + F_magnus + F_drag)/m equals g + (F_magnus + F_drag)/m. A ball with zero velocity accelerates at exactly gravity. |
| Physics.Integrate | src/main.cpp:198-202 | The stored acceleration is the one computed from the forces. The velocity is advanced by acceleration × dt, and the position then moves by the NEW velocity × dt. Spin and the kicked flag are untouched. |
| Physics.SemiImplicitDisplacement | src/main.cpp:198-202 | The position is advanced with the updated velocity. One step therefore moves the ball by v·dt + a·dt² rather than v·dt. |
| Physics.GroundResponse | src/main.cpp:204-215 | The ball never ends below resting height. If it was below, then y becomes the radius, vy' = -0.7·vy, vx' = 0.9·vx, vz' = 0.9·vz and spin' = 0.9·spin, so a falling ball rises. Otherwise nothing changes. |
| Physics.GroundResponseDamps | src/main.cpp:206-215 | The ground response never increases the squared speed or the squared spin. |
| Physics.GoalBoxCorners | src/main.cpp:92-98 | The goal box used by `InGoal` (line 218) spans x in [-5,5], y in [0,4] and z in [24,26]. Its base is on the ground and its front face is 24 units down the field. |
| Physics.StoppedIff | src/main.cpp:226 | With an exact square root, `Stopped` holds exactly when the squared speed is below 0.01 and y ≤ radius + 0.01. A motionless ball within tolerance of the ground is stopped. |
| Physics.OutOfBoundsIff | src/main.cpp:230 | `OutOfBounds` holds exactly when the ball is outside the strip -50 ≤ x ≤ 50 or past z = 50. Negative z has no limit. |
| Physics.Move | src/main.cpp:185-215 | After the force computation, the Euler step and the ground response, the ball is at or above resting height. The stored acceleration is the one computed from the forces. |
| MathLib.Normalize | src/main.cpp:55 | Normalising a zero-length vector returns it unchanged, so in particular the zero vector stays zero. |
| MathLib.NormalizeIsUnit | src/main.cpp:55 | With an exact square root, the drag direction of a moving ball is a unit vector: its squared length and its length are both 1. |
| MathLib.LengthZeroIff | src/main.cpp:51-53 | The speed used by drag and the stop check is never negative, and it is zero exactly for the zero velocity. |
| Rounds.RunStaysConsistent | src/main.cpp:115-255 | Any sequence of frames preserves consistency. The kick stays in range and the ball stays at or above resting height. While aiming, the ball rests unkicked at the spawn point. The message is empty or "GOAL!!!". |
| Rounds.KickAlwaysInRange | src/main.cpp:133-160 | From start-up, after any frames with any keys and frame times, the kick parameters are in range. |
| Rounds.BackToAimingOnlyThroughReset | src/main.cpp:126-255 | Once the ball is in flight, the game returns to aiming only through RESET, in a frame where enter is pressed there. SIMULATING never jumps straight to AIMING. |
| Rounds.GoalMessageStaysUp | src/main.cpp:117-124 | In RESET without enter and with non-negative frame times, the goal message stays up while the elapsed time is below the timer. The timer has dropped by exactly the elapsed time, and the ball does not move. |
| Rounds.HopMove | src/main.cpp:198-215 | At 30 frames per second, a ball hopping in place (vertical speed in [0.1,0.16], at resting height, no horizontal motion, no spin) comes back to the same spot after one move, rising again at a speed in [0.1,0.16]. It assumes the drag is (0, -k·u², 0) for upward speed u; `Rounds.HopDrag` proves this from an exact square root, and `Rounds.HopAgain` combines the two. That the ball sinks below the ground within the frame is the separate lemma `Rounds.HopFlight`. |
| Rounds.HopAgain | src/main.cpp:181-236 | One such frame of SIMULATING leaves the ball hopping on the same spot. The stop check does not fire. |
| Rounds.HoppingNeverStops | src/main.cpp:204-229 | At a steady 30 frames per second, a hopping ball away from the goal and inside the field hops on the same spot for any number of frames, and the flight never ends. |
| Livelock.FlightMove | src/main.cpp:185-215 | With an exact square root and the facts in `TrigSpec`, the default kick moved for 0.9 seconds lands back on the spawn point, rising straight up at 6.174 with no spin. Drag at speed 50 cancels the launch velocity, the ball ends below the ground, and the bounce keeps 0.7 of the vertical speed. |
| Livelock.SettleMove | src/main.cpp:185-215 | A ball at the spawn point rising at u without spin, whose drag d brings it to -0.18 after 6.354/10.6470728 seconds, sinks below the ground and bounces back to the spawn point rising at 0.126 with no spin. `SettleDrag` and `SettleArithmetic` show that u = 6.174 meets this with d = -0.38118276 under an exact square root. |
| Livelock.RunAppend | src/main.cpp:115-255 | Playing two sequences of frames one after the other gives the same context as playing their concatenation. |
| Livelock.HoppingIsReachable | src/main.cpp:115-255 | From start-up, the three frames (space, dt 0), (no keys, dt 0.9) and (no keys, dt 6.354/10.6470728) leave the game in SIMULATING with the ball hopping in place at the spawn point. This assumes an exact square root, the facts in `TrigSpec`, and no reported contact between the goal box and a ball at the spawn point. |
| Livelock.LivelockFromStartUp | src/main.cpp:181-236 | Under the same assumptions, after those three frames any number of frames at a steady 30 per second keeps the game in SIMULATING with the ball hopping at the spawn point. The flight never ends, so enter is never acted on. |

## Left out

- Rendering is not modelled (src/main.cpp:65-76, 259-312): the camera, the window lifecycle, drawing, UI text and the FPS display are all I/O through raylib.
- Input polling is not modelled. `IsKeyDown` and `IsKeyPressed` become the `Input` record.
- The frame time (`GetFrameTime`) becomes the `dt` parameter. Properties that need `dt >= 0` require it.
- IEEE-754 single-precision rounding is not modelled: every float is a real. Because of this, `dt = 1.0f/30` and constants such as 0.7f are exact in the model.
- `sinf`, `cosf` and the square root inside `Vector3Length` and `Vector3Normalize` are uninterpreted. Only lemmas assume the facts stated in `SqrtSpec` and `TrigSpec`.
- `CheckCollisionBoxSphere` is uninterpreted. The goal box corners are computed as in the source, but the sphere-box test itself stays abstract. The reachability lemmas in `Livelock` therefore take as a hypothesis that it reports no contact between the goal box and a ball at the spawn point, which is 23.5 units in front of the box. raymath.h and raylib are not part of this model.
- The ball's radius and mass fields are left out of the `Ball` datatype. They are modelled as constants (0.5 and 0.45), because they are set once at start-up and never written again.
- No claims about trajectories or energy beyond single-frame damping are made. This includes the accuracy of the Euler integration.

=== FILE: game.dfy ===
/** The game state machine of the free-kick simulator: the per-frame update
    of the main loop as a pure function from one simulation context to the
    next. A frame first ticks the message timer, then acts on the current
    state: AIMING reads the aiming keys and may kick, SIMULATING advances
    the physics and may end the flight, RESET waits for the restart key. */
module Game {
  import opened Vectors
  import opened MathLib
  import opened Physics

  datatype GameState = Aiming | Simulating | Reset

  /** Kick strength, elevation angle in degrees and spin about the vertical
      axis. */
  datatype Kick = Kick(strength: real, angle: real, spin: real)

  /** The logical keys of one frame: held keys (up/down arrows for power,
      W/S for angle, left/right arrows for spin) and the two keys that act
      once when pressed (space to kick, enter to restart). */
  datatype Input = Input(
    powerUp: bool, powerDown: bool,
    angleUp: bool, angleDown: bool,
    spinLeft: bool, spinRight: bool,
    kickPressed: bool, resetPressed: bool)

  /** Everything the main loop carries from one frame to the next. */
  datatype Context = Context(ball: Ball, kick: Kick, state: GameState, message: string, timer: real)

  const MinStrength: real := 10.0
  const MaxStrength: real := 100.0
  const MinAngle: real := 0.0
  const MaxAngle: real := 45.0
  const MaxSpin: real := 50.0

  /** Change per second while an aiming key is held. */
  const StrengthRate: real := 10.0
  const AngleRate: real := 10.0
  const SpinRate: real := 20.0

  const DefaultKick: Kick := Kick(50.0, 15.0, 0.0)

  const GoalMessage: string := "GOAL!!!"
  const MessageSeconds: real := 3.0

  /** The context at start-up: ball at the spawn point, default kick,
      aiming, no message. */
  const Initial: Context := Context(RestingBall, DefaultKick, Aiming, "", 0.0)

  predicate KickInRange(k: Kick) {
    && MinStrength <= k.strength <= MaxStrength
    && MinAngle <= k.angle <= MaxAngle
    && -MaxSpin <= k.spin <= MaxSpin
  }

  /** The net direction of a pair of opposing keys: +1, -1, or 0 when both
      or neither are held. */
  function Direction(inc: bool, dec: bool): real {
    (if inc then 1.0 else 0.0) - (if dec then 1.0 else 0.0)
  }

  /** The increase key adds rate * dt, then the decrease key subtracts it,
      so holding both leaves the value where it was. */
  function Nudge(value: real, inc: bool, dec: bool, rate: real, dt: real): (r: real)
    ensures r == value + Direction(inc, dec) * rate * dt
    ensures inc == dec ==> r == value
  {
    var raised := if inc then value + rate * dt else value;
    if dec then raised - rate * dt else raised
  }

  /** Clamp testing the lower bound first, as done for strength and angle.
      The result lies in the range, values already inside are kept, and
      values outside are pulled to the nearer bound. */
  function ClampLowFirst(v: real, lo: real, hi: real): (r: real)
    ensures lo <= hi ==> lo <= r <= hi
    ensures lo <= v <= hi ==> r == v
    ensures v < lo && lo <= hi ==> r == lo
    ensures v > hi && lo <= hi ==> r == hi
  {
    var raised := if v < lo then lo else v;
    if raised > hi then hi else raised
  }

  /** Clamp testing the upper bound first, as done for spin. For a
      non-empty range it agrees with ClampLowFirst. */
  function ClampHighFirst(v: real, lo: real, hi: real): (r: real)
    ensures lo <= hi ==> r == ClampLowFirst(v, lo, hi)
  {
    var lowered := if v > hi then hi else v;
    if lowered < lo then lo else lowered
  }

  /** Every pair of opposing aiming keys cancels out (neither or both held). */
  predicate NoAimingKeys(input: Input) {
    && input.powerUp == input.powerDown
    && input.angleUp == input.angleDown
    && input.spinLeft == input.spinRight
  }

  /** The aiming controls of one frame. Each parameter moves by its rate
      times dt in the net direction of its keys and is then clamped, so
      whatever the starting values and dt, the result is in range. With no
      aiming key held an in-range kick is unchanged, and holding only the
      increase key (for dt >= 0) never lowers a value. */
  function AdjustKick(kick: Kick, input: Input, dt: real): (k: Kick)
    ensures KickInRange(k)
    ensures k.strength == ClampLowFirst(kick.strength + Direction(input.powerUp, input.powerDown) * StrengthRate * dt, MinStrength, MaxStrength)
    ensures k.angle == ClampLowFirst(kick.angle + Direction(input.angleUp, input.angleDown) * AngleRate * dt, MinAngle, MaxAngle)
    ensures k.spin == ClampLowFirst(kick.spin + Direction(input.spinRight, input.spinLeft) * SpinRate * dt, -MaxSpin, MaxSpin)
    ensures KickInRange(kick) && NoAimingKeys(input) ==> k == kick
    ensures KickInRange(kick) && dt >= 0.0 && input.powerUp && !input.powerDown ==> k.strength >= kick.strength
    ensures KickInRange(kick) && dt >= 0.0 && input.angleUp && !input.angleDown ==> k.angle >= kick.angle
    ensures KickInRange(kick) && dt >= 0.0 && input.spinRight && !input.spinLeft ==> k.spin >= kick.spin
  {
    Kick(
      ClampLowFirst(Nudge(kick.strength, input.powerUp, input.powerDown, StrengthRate, dt), MinStrength, MaxStrength),
      ClampLowFirst(Nudge(kick.angle, input.angleUp, input.angleDown, AngleRate, dt), MinAngle, MaxAngle),
      ClampHighFirst(Nudge(kick.spin, input.spinRight, input.spinLeft, SpinRate, dt), -MaxSpin, MaxSpin))
  }

  /** The kick itself: the ball is marked kicked, leaves with no sideways
      velocity, rises at the kick angle with speed `strength` in the
      vertical plane along the field, and spins about the vertical axis;
      its position is untouched. A flat kick goes straight down the field. */
  function Launch(lib: Lib, ball: Ball, kick: Kick): (b: Ball)
    ensures b.isKicked
    ensures b.velocity.x == 0.0
    ensures b.velocity.y == lib.sin(Deg2Rad * kick.angle) * kick.strength
    ensures b.velocity.z == lib.cos(Deg2Rad * kick.angle) * kick.strength
    ensures b.angularVelocity == Vec3(0.0, kick.spin, 0.0)
    ensures b.position == ball.position && b.acceleration == ball.acceleration
    ensures TrigSpec(lib) && kick.angle == 0.0 ==> b.velocity == Vec3(0.0, 0.0, kick.strength)
  {
    var angleRad := Deg2Rad * kick.angle;
    ball.(isKicked := true,
          velocity := Vec3(0.0, lib.sin(angleRad) * kick.strength, lib.cos(angleRad) * kick.strength),
          angularVelocity := Vec3(0.0, kick.spin, 0.0))
  }

  /** With the usual facts about sine, cosine and the square root, a kick
      leaves at exactly the chosen strength. */
  lemma LaunchSpeedIsStrength(lib: Lib, ball: Ball, kick: Kick)
    requires SqrtSpec(lib) && TrigSpec(lib)
    requires KickInRange(kick)
    ensures Length(lib, Launch(lib, ball, kick).velocity) == kick.strength
  {
    var s := kick.strength;
    var v := Launch(lib, ball, kick).velocity;
    var sn := lib.sin(Deg2Rad * kick.angle);
    var cs := lib.cos(Deg2Rad * kick.angle);
    assert sn * sn + cs * cs == 1.0;
    assert Dot(v, v) == (sn * s) * (sn * s) + (cs * s) * (cs * s);
    assert (sn * s) * (sn * s) + (cs * s) * (cs * s) == (sn * sn + cs * cs) * (s * s);
    assert Dot(v, v) == s * s;
    SqrtOfSquare(lib, s);
  }

  /** Because the angle is clamped to [0, 45] degrees and the strength to
      [10, 100], a kick never goes backwards or downwards, its forward speed
      is at most 100 and its upward speed at most sin(45 degrees) * 100. */
  lemma LaunchWithinLimits(lib: Lib, ball: Ball, kick: Kick)
    requires TrigSpec(lib)
    requires KickInRange(kick)
    ensures 0.0 <= Launch(lib, ball, kick).velocity.y <= lib.sin(Deg2Rad * MaxAngle) * MaxStrength
    ensures 0.0 <= Launch(lib, ball, kick).velocity.z <= MaxStrength
  {
    var s := kick.strength;
    var t := Deg2Rad * kick.angle;
    var top := Deg2Rad * MaxAngle;
    assert 0.0 <= t <= top <= Pi / 2.0;
    var sn := lib.sin(t);
    var cs := lib.cos(t);
    assert 0.0 <= sn <= lib.sin(top);
    assert 0.0 <= cs;
    assert sn * sn + cs * cs == 1.0;
    AtMostOne(cs, sn);
    NonNegativeProductBound(sn, s, lib.sin(top), MaxStrength);
    NonNegativeProductBound(cs, s, 1.0, MaxStrength);
  }

  /** A non-negative c with c^2 + s^2 = 1 is at most 1. */
  lemma AtMostOne(c: real, s: real)
    requires 0.0 <= c && c * c + s * s == 1.0
    ensures c <= 1.0
  {
    SquareNonNegative(s);
  }

  /** 0 <= a <= a' and 0 <= b <= b' give 0 <= a b <= a' b'. */
  lemma NonNegativeProductBound(a: real, b: real, a': real, b': real)
    requires 0.0 <= a <= a' && 0.0 <= b <= b'
    ensures 0.0 <= a * b <= a' * b'
  {
    assert a * b <= a' * b;
    assert a' * b <= a' * b';
  }

  /** The message timer runs down while positive; once it is no longer
      positive the message is cleared and the timer stays put. */
  function TickMessage(ctx: Context, dt: real): (r: Context)
    ensures ctx.timer > 0.0 ==> r == ctx.(timer := ctx.timer - dt)
    ensures ctx.timer <= 0.0 ==> r == ctx.(message := "")
  {
    if ctx.timer > 0.0 then ctx.(timer := ctx.timer - dt) else ctx.(message := "")
  }

  /** AIMING: adjust the kick parameters, then kick if space was pressed,
      using the parameters as adjusted in this same frame. Without the kick
      the ball and the state stay as they were. */
  function Aim(lib: Lib, ctx: Context, input: Input, dt: real): (r: Context)
    ensures r.kick == AdjustKick(ctx.kick, input, dt)
    ensures r.message == ctx.message && r.timer == ctx.timer
    ensures input.kickPressed ==> r.state == Simulating && r.ball == Launch(lib, ctx.ball, r.kick)
    ensures !input.kickPressed ==> r.state == ctx.state && r.ball == ctx.ball
  {
    var kick := AdjustKick(ctx.kick, input, dt);
    if input.kickPressed then
      ctx.(kick := kick, ball := Launch(lib, ctx.ball, kick), state := Simulating)
    else
      ctx.(kick := kick)
  }

  /** SIMULATING: a kicked ball moves for one frame; afterwards a goal
      shows the goal message for three seconds and ends the flight, and so
      does (without a message) a stopped or out-of-bounds ball. A ball that
      was never kicked is left alone. The kick parameters never change. */
  function Simulate(lib: Lib, ctx: Context, dt: real): (r: Context)
    ensures !ctx.ball.isKicked ==> r == ctx
    ensures ctx.ball.isKicked ==> r.ball == Move(lib, ctx.ball, dt) && r.ball.position.y >= BallRadius
    ensures r.kick == ctx.kick
    ensures r.state == (if ctx.ball.isKicked && FlightOver(lib, r.ball) then Reset else ctx.state)
    ensures ctx.ball.isKicked && InGoal(lib, r.ball) ==> r.message == GoalMessage && r.timer == MessageSeconds
    ensures !(ctx.ball.isKicked && InGoal(lib, r.ball)) ==> r.message == ctx.message && r.timer == ctx.timer
  {
    if !ctx.ball.isKicked then
      ctx
    else
      var b := Move(lib, ctx.ball, dt);
      var moved := ctx.(ball := b);
      var afterGoal :=
        if InGoal(lib, b) then moved.(message := GoalMessage, timer := MessageSeconds, state := Reset) else moved;
      var afterStop := if Stopped(lib, b) then afterGoal.(state := Reset) else afterGoal;
      if OutOfBounds(b) then afterStop.(state := Reset) else afterStop
  }

  /** RESET: pressing enter puts the ball and the kick back exactly as at
      start-up and returns to aiming; the message and its timer carry on.
      Without enter nothing changes. */
  function Restart(ctx: Context, input: Input): (r: Context)
    ensures input.resetPressed ==> r == Initial.(message := ctx.message, timer := ctx.timer)
    ensures !input.resetPressed ==> r == ctx
  {
    if input.resetPressed then
      var ball := ctx.ball.(position := Vec3(0.0, 0.5, 0.0), velocity := Zero, acceleration := Zero,
                            angularVelocity := Zero, isKicked := false);
      ctx.(ball := ball, kick := Kick(50.0, 15.0, 0.0), state := Aiming)
    else
      ctx
  }

  /** The only state changes: AIMING to SIMULATING, SIMULATING to RESET,
      RESET to AIMING. */
  predicate Allowed(from: GameState, to: GameState) {
    from == to
    || (from == Aiming && to == Simulating)
    || (from == Simulating && to == Reset)
    || (from == Reset && to == Aiming)
  }

  /** A goal is scored in this frame. */
  predicate Scores(lib: Lib, ctx: Context, dt: real) {
    ctx.state == Simulating && ctx.ball.isKicked && InGoal(lib, Move(lib, ctx.ball, dt))
  }

  /** What the main loop keeps true of its context: the kick is in range,
      the ball is never below resting height, it rests unkicked at the spawn
      point while aiming and has been kicked in the other two states, and
      the message is either empty or the goal message. */
  predicate Consistent(ctx: Context) {
    && KickInRange(ctx.kick)
    && ctx.ball.position.y >= BallRadius
    && (ctx.state == Aiming ==> ctx.ball == RestingBall)
    && (ctx.state != Aiming ==> ctx.ball.isKicked)
    && (ctx.message == "" || ctx.message == GoalMessage)
  }

  /** One frame of the main loop. The state moves only along the allowed
      edges, each edge taken exactly when its trigger holds (space, one of
      the three end-of-flight conditions after the move, enter). The message
      is cleared when the timer was not positive and otherwise counts down
      by dt, unless a goal is scored, which sets the goal message for three
      seconds. Consistency of the context is preserved. */
  function Step(lib: Lib, ctx: Context, input: Input, dt: real): (r: Context)
    ensures Allowed(ctx.state, r.state)
    ensures ctx.state == Aiming ==> (r.state == Simulating <==> input.kickPressed)
    ensures ctx.state == Simulating ==>
              (r.state == Reset <==> ctx.ball.isKicked && FlightOver(lib, Move(lib, ctx.ball, dt)))
    ensures ctx.state == Reset ==> (r.state == Aiming <==> input.resetPressed)
    ensures Scores(lib, ctx, dt) ==>
              r.message == GoalMessage && r.timer == MessageSeconds && r.state == Reset
    ensures !Scores(lib, ctx, dt) && ctx.timer > 0.0 ==> r.timer == ctx.timer - dt && r.message == ctx.message
    ensures !Scores(lib, ctx, dt) && ctx.timer <= 0.0 ==> r.timer == ctx.timer && r.message == ""
    ensures Consistent(ctx) ==> Consistent(r)
  {
    var ticked := TickMessage(ctx, dt);
    match ticked.state
    case Aiming => Aim(lib, ticked, input, dt)
    case Simulating => Simulate(lib, ticked, dt)
    case Reset => Restart(ticked, input)
  }
}

=== FILE: livelock.dfy ===
/** The hopping state of `Rounds` is reachable from start-up: a spin-free
    default kick followed by two long frames leaves the ball hopping in place
    at the spawn point, after which a steady thirty frames per second keeps
    the game in SIMULATING for ever.

    The three opening frames:
    1. space with dt = 0: the default kick (50, 15, 0) leaves at speed 50;
    2. dt = 0.9: drag at speed 50 is -0.5 v; divided by the mass 0.45 and
       applied for 0.9 seconds it cancels the launch velocity exactly and
       only 0.9 g is left; the
       ball is below the ground and bounces up at 0.7 * 8.82 = 6.174;
    3. dt = 6.354 / 10.6470728: gravity and drag slow the ball to -0.18,
       below the ground again, and the bounce leaves it rising at 0.126. */
module Livelock {
  import opened Vectors
  import opened MathLib
  import opened Physics
  import opened Game
  import opened Rounds

  const NoKeys: Input := Input(false, false, false, false, false, false, false, false)
  const KickOnly: Input := NoKeys.(kickPressed := true)

  /** Vertical acceleration of a ball rising at 6.174 m/s: gravity plus
      -0.01 * 6.174^2 / 0.45. */
  const SettleAcceleration: real := -10.6470728
  /** The frame time that brings 6.174 m/s rising down to 0.18 m/s falling. */
  const SettleTime: real := 6.354 / 10.6470728

  const Prelude: seq<Frame> := [Frame(KickOnly, 0.0), Frame(NoKeys, 0.9), Frame(NoKeys, SettleTime)]

  /** A kicked ball at the spawn point moving straight up at u without
      spin, in flight. */
  predicate Rebounding(ctx: Context, u: real) {
    && ctx.state == Simulating
    && ctx.ball.isKicked
    && ctx.ball.position == Spawn
    && ctx.ball.velocity == Vec3(0.0, u, 0.0)
    && ctx.ball.angularVelocity == Zero
  }

  /** Frame 1: pressing space at start-up kicks the default kick. */
  lemma KickFrame(lib: Lib)
    ensures Step(lib, Initial, KickOnly, 0.0)
            == Initial.(ball := Launch(lib, RestingBall, DefaultKick), state := Simulating)
  {
    assert KickInRange(DefaultKick) && NoAimingKeys(KickOnly);
  }

  /** With no sideways motion, the drag -(k * 50) v divided by the mass m
      and applied for 0.9 seconds cancels the velocity v exactly and leaves
      0.9 g. */
  lemma DragHalt(v: Vec3)
    requires v.x == 0.0
    ensures Add(v, Scale(Add(Gravity, Scale(Add(Zero, Scale(v, -DragCoefficient * 50.0)), 1.0 / BallMass)), 0.9))
            == Vec3(0.0, -8.82, 0.0)
  {
    assert -DragCoefficient * 50.0 == -0.5;
    assert 1.0 / BallMass == 1.0 / 0.45;
    CancelAt(v.y);
    CancelAt(v.z);
  }

  /** One component of DragHalt: a + (g - 0.5 a / 0.45) * 0.9 = 0.9 g. */
  lemma CancelAt(a: real)
    ensures a + ((a * -0.5) * (1.0 / 0.45)) * 0.9 == 0.0
  {
  }

  /** Frame 2: the long flight that brings the kicked ball back to the
      spawn point rising straight up at 6.174. */
  lemma FlightMove(lib: Lib)
    requires SqrtSpec(lib) && TrigSpec(lib)
    ensures Move(lib, Launch(lib, RestingBall, DefaultKick), 0.9).position == Spawn
    ensures Move(lib, Launch(lib, RestingBall, DefaultKick), 0.9).velocity == Vec3(0.0, 6.174, 0.0)
    ensures Move(lib, Launch(lib, RestingBall, DefaultKick), 0.9).angularVelocity == Zero
  {
    var b := Launch(lib, RestingBall, DefaultKick);
    var v := b.velocity;
    assert b.angularVelocity == Zero;
    assert b.position == Spawn;
    LaunchSpeedIsStrength(lib, RestingBall, DefaultKick);
    DragOpposesMotion(lib, b);
    assert DragForce(lib, b) == Scale(v, -DragCoefficient * 50.0);
    var f := Integrate(lib, b, 0.9);
    DragHalt(v);
    assert f.velocity == Vec3(0.0, -8.82, 0.0);
    assert f.position == Add(Spawn, Scale(Vec3(0.0, -8.82, 0.0), 0.9));
    BounceStraightUp(f, -8.82);
  }

  /** The vertical velocity after dt of a ball moving straight up or down
      at u under gravity and a vertical drag d, before any ground response. */
  function VerticalAfter(u: real, d: real, dt: real): real {
    u + (-9.8 + d * (1.0 / BallMass)) * dt
  }

  /** The velocity half of an integration step of a ball moving straight up
      or down without spin, given its vertical drag d. */
  lemma VerticalVelocity(lib: Lib, b: Ball, d: real, dt: real)
    requires b.velocity.x == 0.0 && b.velocity.z == 0.0 && b.angularVelocity == Zero
    requires DragForce(lib, b) == Vec3(0.0, d, 0.0)
    ensures Integrate(lib, b, dt).velocity == Vec3(0.0, VerticalAfter(b.velocity.y, d, dt), 0.0)
  {
    VerticalAcceleration(lib, b, d);
    VerticalFlight(b.velocity, Acceleration(lib, b), b.velocity.y, -9.8 + d * (1.0 / BallMass), dt);
  }

  /** A ball moving straight up or down without spin, whose drag is the
      vertical force d, accelerates straight up or down at g + d / m. */
  lemma VerticalAcceleration(lib: Lib, b: Ball, d: real)
    requires b.velocity.x == 0.0 && b.velocity.z == 0.0 && b.angularVelocity == Zero
    requires DragForce(lib, b) == Vec3(0.0, d, 0.0)
    ensures Acceleration(lib, b) == Vec3(0.0, -9.8 + d * (1.0 / BallMass), 0.0)
  {
    VerticalForces(MagnusForce(b), DragForce(lib, b), d);
  }

  /** The numbers of frame 3: with drag -0.38118276 the acceleration is
      -10.6470728, and after SettleTime the velocity is -0.18. */
  lemma SettleArithmetic()
    ensures VerticalAfter(6.174, -0.38118276, SettleTime) == -0.18
  {
    assert -9.8 + -0.38118276 * (1.0 / BallMass) == SettleAcceleration;
  }

  /** Frame 3: a ball at the spawn point rising at u without spin, whose
      drag d makes it fall at 0.18 after SettleTime, sinks below the ground
      and bounces up at 0.126, hopping in place. */
  lemma SettleMove(lib: Lib, b: Ball, u: real, d: real)
    requires b.position == Spawn && b.velocity == Vec3(0.0, u, 0.0) && b.angularVelocity == Zero
    requires DragForce(lib, b) == Vec3(0.0, d, 0.0)
    requires VerticalAfter(u, d, SettleTime) == -0.18
    ensures Move(lib, b, SettleTime).position == Spawn
    ensures Move(lib, b, SettleTime).velocity == Vec3(0.0, 0.126, 0.0)
    ensures Move(lib, b, SettleTime).angularVelocity == Zero
  {
    SettleVelocity(lib, b, u, d, SettleTime);
    SettleLanding(Integrate(lib, b, SettleTime));
  }

  /** The velocity half of frame 3: a ball rising at u without spin, under
      a drag of -0.38118276, is falling at 0.18 after SettleTime when the
      numbers of frame 3 hold for u. */
  lemma SettleVelocity(lib: Lib, b: Ball, u: real, d: real, dt: real)
    requires b.velocity == Vec3(0.0, u, 0.0) && b.angularVelocity == Zero
    requires DragForce(lib, b) == Vec3(0.0, d, 0.0)
    requires VerticalAfter(u, d, dt) == -0.18
    ensures Integrate(lib, b, dt).velocity == Vec3(0.0, -0.18, 0.0)
  {
    VerticalVelocity(lib, b, d, dt);
  }

  /** The drag on a ball rising at 6.174 is -k * 6.174^2 = -0.38118276,
      straight down. */
  lemma SettleDrag(lib: Lib, b: Ball)
    requires SqrtSpec(lib)
    requires b.velocity == Vec3(0.0, 6.174, 0.0)
    ensures DragForce(lib, b) == Vec3(0.0, -0.38118276, 0.0)
  {
    assert 6.174 * (-DragCoefficient * 6.174) == -0.38118276;
    UpwardSpeed(lib, b.velocity, 6.174);
    DragOpposesMotion(lib, b);
  }

  /** The landing half of frame 3: falling at 0.18 for SettleTime from the
      spawn point sinks below the ground, and the bounce puts the ball back
      at the spawn point rising at 0.126. */
  lemma SettleLanding(f: Ball)
    requires f.velocity == Vec3(0.0, -0.18, 0.0) && f.angularVelocity == Zero
    requires f.position == Add(Spawn, Scale(f.velocity, SettleTime))
    ensures GroundResponse(f).position == Spawn
    ensures GroundResponse(f).velocity == Vec3(0.0, 0.126, 0.0)
    ensures GroundResponse(f).angularVelocity == Zero
  {
    SinkBelow(f.position, -0.18);
    BounceStraightUp(f, -0.18);
  }

  /** Moving down at w for SettleTime from the spawn point ends below it. */
  lemma SinkBelow(p: Vec3, w: real)
    requires w < 0.0
    requires p == Add(Spawn, Scale(Vec3(0.0, w, 0.0), SettleTime))
    ensures p.y < BallRadius && p.(y := BallRadius) == Spawn
  {
  }

  /** The flight of frames 2 and 3 does not end: the ball is at the spawn
      point, far from the goal box, inside the field, and faster than the
      stop speed. */
  lemma StillFlying(lib: Lib, b: Ball, u: real)
    requires SqrtSpec(lib) && !lib.boxSphere(GoalBox, Spawn, BallRadius)
    requires b.position == Spawn && b.velocity == Vec3(0.0, u, 0.0) && StopSpeed <= u
    ensures !FlightOver(lib, b)
  {
    UpwardSpeed(lib, b.velocity, u);
  }

  /** Frame 2 as a whole step: the game is still in flight, rebounding from
      the spawn point at 6.174. */
  lemma FlightFrame(lib: Lib)
    requires SqrtSpec(lib) && TrigSpec(lib) && !lib.boxSphere(GoalBox, Spawn, BallRadius)
    ensures Rebounding(Step(lib, Step(lib, Initial, KickOnly, 0.0), NoKeys, 0.9), 6.174)
  {
    KickFrame(lib);
    var kicked := Launch(lib, RestingBall, DefaultKick);
    FlightMove(lib);
    StillFlying(lib, Move(lib, kicked, 0.9), 6.174);
  }

  /** A frame in flight whose move does not end the flight stays in
      SIMULATING with the moved ball. */
  lemma KeepsFlying(lib: Lib, ctx: Context, input: Input, dt: real)
    requires ctx.state == Simulating && ctx.ball.isKicked
    requires !FlightOver(lib, Move(lib, ctx.ball, dt))
    ensures Step(lib, ctx, input, dt).state == Simulating
    ensures Step(lib, ctx, input, dt).ball == Move(lib, ctx.ball, dt)
  {
  }

  /** Frame 3 as a whole step: the game is still in flight, now hopping in
      place at the spawn point. */
  lemma SettleFrame(lib: Lib, ctx: Context, input: Input)
    requires SqrtSpec(lib) && !lib.boxSphere(GoalBox, Spawn, BallRadius)
    requires Rebounding(ctx, 6.174)
    ensures Hopping(Step(lib, ctx, input, SettleTime))
    ensures Step(lib, ctx, input, SettleTime).ball.position == Spawn
  {
    SettleDrag(lib, ctx.ball);
    SettleArithmetic();
    SettleMove(lib, ctx.ball, 6.174, -0.38118276);
    StillFlying(lib, Move(lib, ctx.ball, SettleTime), 0.126);
    KeepsFlying(lib, ctx, input, SettleTime);
  }

  /** From start-up, the three opening frames leave the game in flight with
      the ball hopping in place at the spawn point. */
  lemma HoppingIsReachable(lib: Lib)
    requires SqrtSpec(lib) && TrigSpec(lib) && !lib.boxSphere(GoalBox, Spawn, BallRadius)
    ensures Hopping(Run(lib, Initial, Prelude))
    ensures Run(lib, Initial, Prelude).ball.position == Spawn
  {
    assert Prelude[..2][..1] == Prelude[..1] && Prelude[..1][..0] == [];
    assert Run(lib, Initial, Prelude[..1]) == Step(lib, Initial, KickOnly, 0.0);
    assert Run(lib, Initial, Prelude[..2]) == Step(lib, Step(lib, Initial, KickOnly, 0.0), NoKeys, 0.9);
    FlightFrame(lib);
    SettleFrame(lib, Run(lib, Initial, Prelude[..2]), NoKeys);
  }

  /** Playing two frame sequences one after the other. */
  lemma {:induction false} RunAppend(lib: Lib, ctx: Context, first: seq<Frame>, second: seq<Frame>)
    ensures Run(lib, ctx, first + second) == Run(lib, Run(lib, ctx, first), second)
    decreases |second|
  {
    if |second| > 0 {
      var n := |second|;
      assert (first + second)[..|first + second| - 1] == first + second[..n - 1];
      assert (first + second)[|first + second| - 1] == second[n - 1];
      RunAppend(lib, ctx, first, second[..n - 1]);
    } else {
      assert first + second == first;
    }
  }

  /** The livelock is reachable: after the three opening frames, any number
      of frames at a steady thirty frames per second, whatever keys are
      pressed, leave the game in SIMULATING with the ball hopping on the
      spawn point; the flight never ends and enter is never listened to. */
  lemma LivelockFromStartUp(lib: Lib, later: seq<Frame>)
    requires SqrtSpec(lib) && TrigSpec(lib) && !lib.boxSphere(GoalBox, Spawn, BallRadius)
    requires forall i :: 0 <= i < |later| ==> later[i].dt == FrameAt30Fps
    ensures Run(lib, Initial, Prelude + later).state == Simulating
    ensures Hopping(Run(lib, Initial, Prelude + later))
    ensures Run(lib, Initial, Prelude + later).ball.position == Spawn
  {
    HoppingIsReachable(lib);
    var ctx := Run(lib, Initial, Prelude);
    assert !InGoal(lib, ctx.ball) && !OutOfBounds(ctx.ball);
    HoppingNeverStops(lib, ctx, later);
    RunAppend(lib, Initial, Prelude, later);
  }
}

=== FILE: mathlib.dfy ===
/** The library routines the simulation calls but whose bodies are not part
    of this model: the C math library's sqrtf, sinf and cosf, and raylib's
    CheckCollisionBoxSphere. They are passed around as a `Lib` value of
    uninterpreted total functions; the few facts a property needs about them
    are stated as ghost predicates that only lemmas require.

    Vector3Length and Vector3Normalize follow raymath's definitions in terms
    of the abstract square root. */
module MathLib {
  import opened Vectors

  /** raylib's BoundingBox: the minimum and maximum corners of an
      axis-aligned box. */
  datatype Box = Box(min: Vec3, max: Vec3)

  datatype Lib = Lib(
    sqrt: real -> real,
    sin: real -> real,
    cos: real -> real,
    boxSphere: (Box, Vec3, real) -> bool)

  /** raylib's PI and DEG2RAD. */
  const Pi: real := 3.14159265358979323846
  const Deg2Rad: real := Pi / 180.0

  /** Vector3Length: the square root of the squared length. */
  function Length(lib: Lib, v: Vec3): real {
    lib.sqrt(Dot(v, v))
  }

  /** Vector3Normalize: divides by the length unless that length is zero,
      in which case the vector comes back unchanged. */
  function Normalize(lib: Lib, v: Vec3): (r: Vec3)
    ensures Length(lib, v) == 0.0 ==> r == v
    ensures v == Zero ==> r == Zero
  {
    var len := Length(lib, v);
    if len != 0.0 then Scale(v, 1.0 / len) else v
  }

  /** With an exact square root, a non-zero vector normalises to a unit
      vector: its squared length and its length are both one. */
  lemma NormalizeIsUnit(lib: Lib, v: Vec3)
    requires SqrtSpec(lib)
    requires v != Zero
    ensures Dot(Normalize(lib, v), Normalize(lib, v)) == 1.0
    ensures Length(lib, Normalize(lib, v)) == 1.0
  {
    var d := Dot(v, v);
    var len := Length(lib, v);
    LengthZeroIff(lib, v);
    SqrtAt(lib, d);
    var n := Normalize(lib, v);
    var q := 1.0 / len;
    assert n == Scale(v, q);
    DotScale(v, q, n);
    DotScale(v, q, v);
    assert Dot(n, v) == Dot(v, n);
    assert Dot(n, n) == q * (q * d);
    UnitRatio(len, d, q);
    SqrtOfSquare(lib, 1.0);
  }

  /** For l * l = d with l nonzero, d / l^2 = 1. */
  lemma UnitRatio(l: real, d: real, q: real)
    requires l != 0.0 && l * l == d && q == 1.0 / l
    ensures q * (q * d) == 1.0
  {
    assert q * l == 1.0;
    assert q * (q * d) == (q * l) * (q * l);
  }

  /** What the real square root satisfies on the non-negative reals. */
  ghost predicate SqrtSpec(lib: Lib) {
    forall x: real :: 0.0 <= x ==> 0.0 <= lib.sqrt(x) && lib.sqrt(x) * lib.sqrt(x) == x
  }

  /** What sine and cosine satisfy: their values at zero, the Pythagorean
      identity, non-negativity on the first quadrant and monotonicity of
      sine there. */
  ghost predicate TrigSpec(lib: Lib) {
    && lib.sin(0.0) == 0.0
    && lib.cos(0.0) == 1.0
    && (forall t: real :: lib.sin(t) * lib.sin(t) + lib.cos(t) * lib.cos(t) == 1.0)
    && (forall t: real :: 0.0 <= t <= Pi / 2.0 ==> 0.0 <= lib.sin(t) && 0.0 <= lib.cos(t))
    && (forall a: real, b: real :: 0.0 <= a <= b <= Pi / 2.0 ==> lib.sin(a) <= lib.sin(b))
  }

  /** One instance of SqrtSpec. */
  lemma SqrtAt(lib: Lib, x: real)
    requires SqrtSpec(lib)
    requires 0.0 <= x
    ensures 0.0 <= lib.sqrt(x) && lib.sqrt(x) * lib.sqrt(x) == x
  {
  }

  /** The square root of a square is the non-negative base. */
  lemma SqrtOfSquare(lib: Lib, a: real)
    requires SqrtSpec(lib)
    requires 0.0 <= a
    ensures lib.sqrt(a * a) == a
  {
    var s := lib.sqrt(a * a);
    assert 0.0 <= a * a;
    assert 0.0 <= s && s * s == a * a;
    assert (s - a) * (s + a) == s * s - a * a;
    ProductZero(s - a, s + a);
  }

  /** Vector3Length is never negative and is zero exactly for the zero
      vector. */
  lemma LengthZeroIff(lib: Lib, v: Vec3)
    requires SqrtSpec(lib)
    ensures Length(lib, v) >= 0.0
    ensures Length(lib, v) == 0.0 <==> v == Zero
  {
    DotSelf(v);
    SqrtZeroIff(lib, Dot(v, v));
  }

  /** The square root of a non-negative number is non-negative and is zero
      exactly at zero. */
  lemma SqrtZeroIff(lib: Lib, d: real)
    requires SqrtSpec(lib)
    requires 0.0 <= d
    ensures 0.0 <= lib.sqrt(d)
    ensures lib.sqrt(d) == 0.0 <==> d == 0.0
  {
    var s := lib.sqrt(d);
    SqrtAt(lib, d);
    if d == 0.0 {
      ProductZero(s, s);
    }
  }
}

=== FILE: physics.dfy ===
/** The physics integrator of the free-kick simulator: the forces on the
    ball (gravity, the Magnus force of its spin, air drag), one
    semi-implicit Euler step, the ground-collision response and the three
    conditions that end a flight (goal, stopped, out of bounds). */
module Physics {
  import opened Vectors
  import opened MathLib

  /** The ball's radius and mass are set once at start-up and never
      written again, so they are constants here rather than fields. */
  const BallRadius: real := 0.5
  const BallMass: real := 0.45

  const Gravity: Vec3 := Vec3(0.0, -9.8, 0.0)

  /** Coefficient of the simplified Magnus force F = C (w x v). */
  const LiftCoefficient: real := 0.05
  /** Coefficient of the quadratic drag F = -k |v|^2 v/|v|. */
  const DragCoefficient: real := 0.01

  /** Ground response: the vertical velocity is reversed and scaled by
      Restitution; horizontal velocity and spin are scaled by Friction. */
  const Restitution: real := 0.7
  const Friction: real := 0.9

  /** The flight ends when the ball is slower than StopSpeed within
      GroundTolerance of resting height, or beyond FieldLimit. */
  const StopSpeed: real := 0.1
  const GroundTolerance: real := 0.01
  const FieldLimit: real := 50.0

  /** The goal: a 10 x 4 x 2 box standing on the ground, centred 25 units
      down the field. */
  const GoalWidth: real := 10.0
  const GoalHeight: real := 4.0
  const GoalDepth: real := 2.0
  const GoalPosition: Vec3 := Vec3(0.0, GoalHeight / 2.0, 25.0)
  const GoalBox: Box := Box(
    Vec3(GoalPosition.x - GoalWidth / 2.0, GoalPosition.y - GoalHeight / 2.0, GoalPosition.z - GoalDepth / 2.0),
    Vec3(GoalPosition.x + GoalWidth / 2.0, GoalPosition.y + GoalHeight / 2.0, GoalPosition.z + GoalDepth / 2.0))

  /** Where the ball rests before a kick. */
  const Spawn: Vec3 := Vec3(0.0, 0.5, 0.0)

  datatype Ball = Ball(
    position: Vec3,
    velocity: Vec3,
    acceleration: Vec3,
    angularVelocity: Vec3,
    isKicked: bool)

  /** The ball at its spawn point, at rest and not kicked. */
  const RestingBall: Ball := Ball(Spawn, Zero, Zero, Zero, false)

  function Abs(x: real): real {
    if x < 0.0 then -x else x
  }

  /** CalculateMagnusForce: vanishes without spin or without motion. */
  function MagnusForce(ball: Ball): (f: Vec3)
    ensures ball.angularVelocity == Zero || ball.velocity == Zero ==> f == Zero
  {
    Scale(Cross(ball.angularVelocity, ball.velocity), LiftCoefficient)
  }

  /** The Magnus force is perpendicular to both the velocity and the spin
      axis, so it does no work and bends the path without changing the
      speed directly. */
  lemma MagnusDoesNoWork(ball: Ball)
    ensures Dot(MagnusForce(ball), ball.velocity) == 0.0
    ensures Dot(MagnusForce(ball), ball.angularVelocity) == 0.0
  {
    var c := Cross(ball.angularVelocity, ball.velocity);
    CrossOrthogonal(ball.angularVelocity, ball.velocity);
    DotScale(c, LiftCoefficient, ball.velocity);
    DotScale(c, LiftCoefficient, ball.angularVelocity);
  }

  /** CalculateDragForce: zero unless the speed is positive, so in
      particular zero for a ball at rest. */
  function DragForce(lib: Lib, ball: Ball): (f: Vec3)
    ensures !(Length(lib, ball.velocity) > 0.0) ==> f == Zero
    ensures ball.velocity == Zero ==> f == Zero
  {
    var speed := Length(lib, ball.velocity);
    if speed > 0.0 then
      var direction := Normalize(lib, Negate(ball.velocity));
      assert ball.velocity == Zero ==> direction == Zero;
      Scale(direction, DragCoefficient * speed * speed)
    else
      Zero
  }

  /** When the ball moves, the drag points against its velocity with
      magnitude k |v|^2: it equals -k |v| v, and its dot product with the
      velocity is never positive, so drag never speeds the ball up. */
  lemma DragOpposesMotion(lib: Lib, ball: Ball)
    ensures Length(lib, ball.velocity) > 0.0 ==>
              DragForce(lib, ball) == Scale(ball.velocity, -DragCoefficient * Length(lib, ball.velocity))
    ensures Dot(DragForce(lib, ball), ball.velocity) <= 0.0
  {
    var speed := Length(lib, ball.velocity);
    if speed > 0.0 {
      DragAgainstVelocity(lib, ball.velocity, speed);
    }
  }

  /** The drag direction -v/|v| scaled by k |v|^2 is -k |v| v, whose dot
      product with v is -k |v| |v|^2. */
  lemma DragAgainstVelocity(lib: Lib, v: Vec3, speed: real)
    requires speed == Length(lib, v) && speed > 0.0
    ensures Scale(Normalize(lib, Negate(v)), DragCoefficient * speed * speed)
            == Scale(v, -DragCoefficient * speed)
    ensures Dot(Scale(v, -DragCoefficient * speed), v) <= 0.0
  {
    assert Dot(Negate(v), Negate(v)) == Dot(v, v);
    assert Length(lib, Negate(v)) == speed;
    var n := Normalize(lib, Negate(v));
    assert n == Scale(Negate(v), 1.0 / speed);
    Rescale(v.x, speed);
    Rescale(v.y, speed);
    Rescale(v.z, speed);
    DragDoesNegativeWork(v, -DragCoefficient * speed);
  }

  lemma DragDoesNegativeWork(v: Vec3, c: real)
    requires c <= 0.0
    ensures Dot(Scale(v, c), v) <= 0.0
  {
    DotScale(v, c, v);
    DotSelf(v);
    NonPositiveProduct(c, Dot(v, v));
  }

  /** One component of the drag: (-a / s) (k s^2) = a (-k s). */
  lemma Rescale(a: real, s: real)
    requires s != 0.0
    ensures (-a * (1.0 / s)) * (DragCoefficient * s * s) == a * (-DragCoefficient * s)
  {
    assert (1.0 / s) * s == 1.0;
  }

  lemma NonPositiveProduct(p: real, q: real)
    requires p <= 0.0 && q >= 0.0
    ensures p * q <= 0.0
  {
  }

  /** The acceleration a = F/m from F = m g + F_magnus + F_drag: gravity
      plus the spin and drag forces divided by the mass. A ball that is not
      moving feels gravity alone. */
  function Acceleration(lib: Lib, ball: Ball): (a: Vec3)
    ensures a == Add(Gravity, Scale(Add(MagnusForce(ball), DragForce(lib, ball)), 1.0 / BallMass))
    ensures ball.velocity == Zero ==> a == Gravity
  {
    var forceGravity := Scale(Gravity, BallMass);
    var totalForce := Add(forceGravity, Add(MagnusForce(ball), DragForce(lib, ball)));
    CancelMass(Gravity, Add(MagnusForce(ball), DragForce(lib, ball)));
    ScaleZero(1.0 / BallMass);
    Scale(totalForce, 1.0 / BallMass)
  }

  /** (m g + F) / m = g + F / m. */
  lemma CancelMass(g: Vec3, f: Vec3)
    ensures Scale(Add(Scale(g, BallMass), f), 1.0 / BallMass) == Add(g, Scale(f, 1.0 / BallMass))
  {
    assert BallMass * (1.0 / BallMass) == 1.0;
  }

  /** One semi-implicit Euler step: the velocity is advanced by a dt first
      and the position then moves with the NEW velocity. Spin and the
      kicked flag are untouched. */
  function Integrate(lib: Lib, ball: Ball, dt: real): (b: Ball)
    ensures b.acceleration == Acceleration(lib, ball)
    ensures b.velocity == Add(ball.velocity, Scale(b.acceleration, dt))
    ensures b.position == Add(ball.position, Scale(b.velocity, dt))
    ensures b.angularVelocity == ball.angularVelocity && b.isKicked == ball.isKicked
  {
    var a := Acceleration(lib, ball);
    var v := Add(ball.velocity, Scale(a, dt));
    var p := Add(ball.position, Scale(v, dt));
    ball.(acceleration := a, velocity := v, position := p)
  }

  /** Because the position moves with the updated velocity, one step
      displaces the ball by v dt + a dt^2, where explicit Euler would give
      v dt. */
  lemma SemiImplicitDisplacement(lib: Lib, ball: Ball, dt: real)
    ensures Integrate(lib, ball, dt).position
            == Add(Add(ball.position, Scale(ball.velocity, dt)), Scale(Acceleration(lib, ball), dt * dt))
  {
    var a := Acceleration(lib, ball);
    Displacement(ball.position, ball.velocity, a, dt);
  }

  lemma Displacement(p: Vec3, v: Vec3, a: Vec3, dt: real)
    ensures Add(p, Scale(Add(v, Scale(a, dt)), dt)) == Add(Add(p, Scale(v, dt)), Scale(a, dt * dt))
  {
  }

  /** Ground collision. Afterwards the ball is never below resting height.
      If it was below, it is lifted to exactly the radius, its vertical
      velocity is reversed and damped and its horizontal velocity and spin
      are damped; otherwise nothing changes. */
  function GroundResponse(ball: Ball): (b: Ball)
    ensures b.position.y >= BallRadius
    ensures b.position.x == ball.position.x && b.position.z == ball.position.z
    ensures ball.position.y >= BallRadius ==> b == ball
    ensures ball.position.y < BallRadius ==>
              && b.position.y == BallRadius
              && b.velocity == Vec3(Friction * ball.velocity.x, -Restitution * ball.velocity.y, Friction * ball.velocity.z)
              && b.angularVelocity == Scale(ball.angularVelocity, Friction)
    ensures ball.position.y < BallRadius && ball.velocity.y < 0.0 ==> b.velocity.y > 0.0
    ensures b.acceleration == ball.acceleration && b.isKicked == ball.isKicked
  {
    if ball.position.y < BallRadius then
      var v := ball.velocity;
      ball.(position := ball.position.(y := BallRadius),
            velocity := Vec3(v.x * Friction, v.y * -Restitution, v.z * Friction),
            angularVelocity := Scale(ball.angularVelocity, Friction))
    else
      ball
  }

  /** The ground response never adds speed or spin: both squared lengths
      can only shrink. */
  lemma GroundResponseDamps(ball: Ball)
    ensures Dot(GroundResponse(ball).velocity, GroundResponse(ball).velocity) <= Dot(ball.velocity, ball.velocity)
    ensures Dot(GroundResponse(ball).angularVelocity, GroundResponse(ball).angularVelocity)
            <= Dot(ball.angularVelocity, ball.angularVelocity)
  {
    if ball.position.y < BallRadius {
      var v := ball.velocity;
      var w := ball.angularVelocity;
      DampingShrinks(v, Friction, -Restitution, Friction);
      DampingShrinks(w, Friction, Friction, Friction);
    }
  }

  /** Scaling each component by a factor of magnitude at most one does not
      increase the squared length. */
  lemma DampingShrinks(v: Vec3, kx: real, ky: real, kz: real)
    requires -1.0 <= kx <= 1.0 && -1.0 <= ky <= 1.0 && -1.0 <= kz <= 1.0
    ensures Dot(Vec3(v.x * kx, v.y * ky, v.z * kz), Vec3(v.x * kx, v.y * ky, v.z * kz)) <= Dot(v, v)
  {
    var d := Vec3(v.x * kx, v.y * ky, v.z * kz);
    ScaledSquare(v.x, kx, d.x);
    ScaledSquare(v.y, ky, d.y);
    ScaledSquare(v.z, kz, d.z);
  }

  lemma ScaledSquare(a: real, k: real, p: real)
    requires -1.0 <= k <= 1.0 && p == a * k
    ensures p * p <= a * a
  {
    SquareNonNegative(a);
    assert (a * k) * (a * k) == (k * k) * (a * a);
    UnitSquare(k);
    assert (k * k) * (a * a) <= 1.0 * (a * a);
  }

  lemma UnitSquare(k: real)
    requires -1.0 <= k <= 1.0
    ensures 0.0 <= k * k <= 1.0
  {
    SquareNonNegative(k);
    if k >= 0.0 {
      assert k * k <= k * 1.0;
    } else {
      assert k * k == (-k) * (-k);
      assert (-k) * (-k) <= (-k) * 1.0;
    }
  }

  /** The whole flight update of one frame: integrate, then resolve the
      ground contact. */
  function Move(lib: Lib, ball: Ball, dt: real): (b: Ball)
    ensures b.position.y >= BallRadius
    ensures b.isKicked == ball.isKicked
    ensures b.acceleration == Acceleration(lib, ball)
  {
    GroundResponse(Integrate(lib, ball, dt))
  }

  /** The ball's sphere touches the goal box. */
  predicate InGoal(lib: Lib, ball: Ball) {
    lib.boxSphere(GoalBox, ball.position, BallRadius)
  }

  /** The ball is nearly still at (or within tolerance of) resting height. */
  predicate Stopped(lib: Lib, ball: Ball) {
    Length(lib, ball.velocity) < StopSpeed && ball.position.y <= BallRadius + GroundTolerance
  }

  /** The ball has left the field sideways or past the far end; the near
      end (negative z) has no limit. */
  predicate OutOfBounds(ball: Ball) {
    Abs(ball.position.x) > FieldLimit || ball.position.z > FieldLimit
  }

  /** The goal box spans x in [-5, 5], y in [0, 4] and z in [24, 26]: its
      base lies on the ground and its front face 24 units down the field. */
  lemma GoalBoxCorners()
    ensures GoalBox == Box(Vec3(-5.0, 0.0, 24.0), Vec3(5.0, 4.0, 26.0))
  {
  }

  /** With an exact square root, the stop test on the speed is a test on
      the squared speed: a ball is stopped exactly when its squared speed is
      below 0.01 and it is within tolerance of resting height. In
      particular a motionless ball on the ground is stopped. */
  lemma StoppedIff(lib: Lib, ball: Ball)
    requires SqrtSpec(lib)
    ensures Stopped(lib, ball) <==>
              Dot(ball.velocity, ball.velocity) < StopSpeed * StopSpeed
              && ball.position.y <= BallRadius + GroundTolerance
    ensures ball.velocity == Zero && ball.position.y <= BallRadius + GroundTolerance ==> Stopped(lib, ball)
  {
    var d := Dot(ball.velocity, ball.velocity);
    var l := Length(lib, ball.velocity);
    DotSelf(ball.velocity);
    SqrtAt(lib, d);
    assert StopSpeed * StopSpeed == 0.01;
    SquareBelow(l, d, StopSpeed);
    assert Stopped(lib, ball) <==> l < StopSpeed && ball.position.y <= BallRadius + GroundTolerance;
  }

  /** For non-negative l with l * l = d and positive c: l < c exactly when
      d < c * c. */
  lemma SquareBelow(l: real, d: real, c: real)
    requires 0.0 <= l && l * l == d && 0.0 < c
    ensures l < c <==> d < c * c
  {
    assert c * c - d == (c - l) * (c + l);
    if l < c {
      PositiveProduct(c - l, c + l);
    } else {
      NonPositiveProduct(c - l, c + l);
    }
  }

  lemma PositiveProduct(p: real, q: real)
    requires p > 0.0 && q > 0.0
    ensures p * q > 0.0
  {
  }

  /** The field is the strip |x| <= 50 up to z = 50; behind the kick spot
      it has no limit. */
  lemma OutOfBoundsIff(ball: Ball)
    ensures OutOfBounds(ball) <==>
              !(-FieldLimit <= ball.position.x <= FieldLimit && ball.position.z <= FieldLimit)
  {
  }

  /** Any of the three conditions that end a flight. */
  predicate FlightOver(lib: Lib, ball: Ball) {
    InGoal(lib, ball) || Stopped(lib, ball) || OutOfBounds(ball)
  }
}

=== FILE: rounds.dfy ===
/** Properties of the main loop over many frames: a run is the fold of
    Step over a sequence of frames, each carrying that frame's keys and its
    elapsed time. */
module Rounds {
  import opened Vectors
  import opened MathLib
  import opened Physics
  import opened Game

  datatype Frame = Frame(input: Input, dt: real)

  /** The context after playing the frames in order. */
  function Run(lib: Lib, ctx: Context, frames: seq<Frame>): Context
    decreases |frames|
  {
    if |frames| == 0 then ctx
    else
      var last := frames[|frames| - 1];
      Step(lib, Run(lib, ctx, frames[..|frames| - 1]), last.input, last.dt)
  }

  /** Total time covered by the frames. */
  function Elapsed(frames: seq<Frame>): real
    decreases |frames|
  {
    if |frames| == 0 then 0.0 else Elapsed(frames[..|frames| - 1]) + frames[|frames| - 1].dt
  }

  /** Every run preserves the consistency of the context. */
  lemma {:induction false} RunStaysConsistent(lib: Lib, ctx: Context, frames: seq<Frame>)
    requires Consistent(ctx)
    ensures Consistent(Run(lib, ctx, frames))
    decreases |frames|
  {
    if |frames| > 0 {
      RunStaysConsistent(lib, ctx, frames[..|frames| - 1]);
    }
  }

  /** From start-up, after any sequence of frames with any keys and any
      frame times, the kick parameters are within their ranges and the ball
      is not below resting height. */
  lemma {:induction false} KickAlwaysInRange(lib: Lib, frames: seq<Frame>)
    ensures KickInRange(Run(lib, Initial, frames).kick)
    ensures Run(lib, Initial, frames).ball.position.y >= BallRadius
  {
    RunStaysConsistent(lib, Initial, frames);
  }

  /** Once the ball is in flight, the game gets back to aiming only through
      the reset state, by a frame in which enter is pressed there. */
  lemma {:induction false} BackToAimingOnlyThroughReset(lib: Lib, ctx: Context, frames: seq<Frame>)
    requires ctx.state == Simulating
    requires Run(lib, ctx, frames).state == Aiming
    ensures exists k :: 0 <= k < |frames| && Run(lib, ctx, frames[..k]).state == Reset && frames[k].input.resetPressed
    decreases |frames|
  {
    var n := |frames|;
    if n == 0 {
      assert false;
    } else {
      var prefix := frames[..n - 1];
      var before := Run(lib, ctx, prefix);
      EntersAiming(lib, before, frames[n - 1].input, frames[n - 1].dt);
      if before.state == Reset {
        assert frames[..n - 1] == prefix;
      } else {
        assert before.state == Aiming;
        BackToAimingOnlyThroughReset(lib, ctx, prefix);
        var k :| 0 <= k < n - 1 && Run(lib, ctx, prefix[..k]).state == Reset && prefix[k].input.resetPressed;
        assert prefix[..k] == frames[..k];
      }
    }
  }

  /** A frame ends in AIMING only if it started there, or started in RESET
      with enter pressed. */
  lemma EntersAiming(lib: Lib, ctx: Context, input: Input, dt: real)
    requires Step(lib, ctx, input, dt).state == Aiming
    ensures ctx.state == Aiming || (ctx.state == Reset && input.resetPressed)
  {
  }

  /** While the player has not pressed enter, the goal message stays up as
      long as less time than its timer has passed, and the timer has run
      down by exactly the elapsed time; the ball does not move. */
  lemma {:induction false} GoalMessageStaysUp(lib: Lib, ctx: Context, frames: seq<Frame>)
    requires ctx.state == Reset && ctx.message == GoalMessage
    requires forall i :: 0 <= i < |frames| ==> !frames[i].input.resetPressed && frames[i].dt >= 0.0
    requires Elapsed(frames) < ctx.timer
    ensures Run(lib, ctx, frames).state == Reset
    ensures Run(lib, ctx, frames).ball == ctx.ball
    ensures Run(lib, ctx, frames).message == GoalMessage
    ensures Run(lib, ctx, frames).timer == ctx.timer - Elapsed(frames)
    decreases |frames|
  {
    var n := |frames|;
    if n > 0 {
      var prefix := frames[..n - 1];
      assert forall i :: 0 <= i < |prefix| ==> prefix[i] == frames[i];
      GoalMessageStaysUp(lib, ctx, prefix);
    }
  }

  /** A kicked ball hopping in place on the ground: it sits at resting
      height with no horizontal motion and no spin, moving upwards at a
      speed between 0.1 and 0.16. */
  predicate Hopping(ctx: Context) {
    ctx.state == Simulating && ctx.ball.isKicked && HoppingBall(ctx.ball)
  }

  /** The frame time, in seconds, at thirty frames per second. */
  const FrameAt30Fps: real := 1.0 / 30.0

  /** The ball of a hopping context. */
  predicate HoppingBall(b: Ball) {
    && b.position.y == BallRadius
    && b.velocity.x == 0.0 && b.velocity.z == 0.0
    && 0.1 <= b.velocity.y <= 0.16
    && b.angularVelocity == Zero
  }

  /** At thirty frames per second, gravity pulls a hopping ball below the
      ground within the frame, and the bounce sends it back up at 0.7 times
      that speed, which is again between 0.1 and 0.16. The ball stays where
      it is and, being faster than the stop speed, is not stopped. */
  lemma HopMove(lib: Lib, b: Ball)
    requires HoppingBall(b)
    requires DragForce(lib, b) == Vec3(0.0, b.velocity.y * (-DragCoefficient * b.velocity.y), 0.0)
    ensures HoppingBall(Move(lib, b, FrameAt30Fps))
    ensures Move(lib, b, FrameAt30Fps).position == b.position
  {
    HopFlight(lib, b);
    HopLandingPosition(b.position, Integrate(lib, b, FrameAt30Fps));
    HopLandingRebound(b.position, Integrate(lib, b, FrameAt30Fps));
  }

  /** The flight half of a hop: after one integration step the ball moves
      straight down at between 0.1666 and 0.2267 and has sunk below resting
      height, still without spin. */
  lemma HopFlight(lib: Lib, b: Ball)
    requires HoppingBall(b)
    requires DragForce(lib, b) == Vec3(0.0, b.velocity.y * (-DragCoefficient * b.velocity.y), 0.0)
    ensures Sinking(b.position, Integrate(lib, b, FrameAt30Fps))
  {
    HopVelocity(lib, b);
    HopArithmetic(b.velocity.y);
    SinkingAfter(b.position, Integrate(lib, b, FrameAt30Fps), FallSpeed(b.velocity.y));
  }

  /** The vertical velocity after one frame of a ball rising at u, under
      gravity and drag. */
  function FallSpeed(u: real): real {
    u + (-9.8 + (u * (-DragCoefficient * u)) * (1.0 / BallMass)) * FrameAt30Fps
  }

  /** The velocity half of the integration step of a hopping ball. */
  lemma HopVelocity(lib: Lib, b: Ball)
    requires HoppingBall(b)
    requires DragForce(lib, b) == Vec3(0.0, b.velocity.y * (-DragCoefficient * b.velocity.y), 0.0)
    ensures Integrate(lib, b, FrameAt30Fps).velocity == Vec3(0.0, FallSpeed(b.velocity.y), 0.0)
  {
    var u := b.velocity.y;
    var d := u * (-DragCoefficient * u);
    var ay := -9.8 + d * (1.0 / BallMass);
    VerticalForces(MagnusForce(b), DragForce(lib, b), d);
    var a := Acceleration(lib, b);
    assert a == Vec3(0.0, ay, 0.0);
    VerticalFlight(b.velocity, a, u, ay, FrameAt30Fps);
    assert FallSpeed(u) == u + ay * FrameAt30Fps;
  }

  /** Moving straight down at w for a thirtieth of a second from resting
      height p sinks the ball below p. */
  lemma SinkingAfter(p: Vec3, f: Ball, w: real)
    requires p.y == BallRadius && -0.2267 <= w <= -0.1666
    requires f.velocity == Vec3(0.0, w, 0.0) && f.angularVelocity == Zero
    requires f.position == Add(p, Scale(f.velocity, FrameAt30Fps))
    ensures Sinking(p, f)
  {
  }

  /** A ball that has sunk below a resting position p during one frame. */
  predicate Sinking(p: Vec3, f: Ball) {
    && p.y == BallRadius
    && f.velocity.x == 0.0 && f.velocity.z == 0.0
    && -0.2267 <= f.velocity.y <= -0.1666
    && f.position.x == p.x && f.position.y < p.y && f.position.z == p.z
    && f.angularVelocity == Zero
  }

  /** The landing half of a hop puts the sunken ball back at its resting
      position. */
  lemma HopLandingPosition(p: Vec3, f: Ball)
    requires Sinking(p, f)
    ensures GroundResponse(f).position == p
  {
    BounceStraightUp(f, f.velocity.y);
  }

  /** The landing half of a hop sends the sunken ball upwards again, hopping
      at a speed between 0.1 and 0.16. */
  lemma HopLandingRebound(p: Vec3, f: Ball)
    requires Sinking(p, f)
    ensures HoppingBall(GroundResponse(f))
  {
    BounceStraightUp(f, f.velocity.y);
    ReboundSpeed(f.velocity.y);
  }

  /** A ball below the ground moving straight down without spin comes out
      of the ground response at resting height, moving straight up at the
      restitution share of its speed. */
  lemma BounceStraightUp(f: Ball, vy: real)
    requires f.position.y < BallRadius
    requires f.velocity == Vec3(0.0, vy, 0.0) && f.angularVelocity == Zero
    ensures GroundResponse(f).position == f.position.(y := BallRadius)
    ensures GroundResponse(f).velocity == Vec3(0.0, -Restitution * vy, 0.0)
    ensures GroundResponse(f).angularVelocity == Zero
  {
    ScaleZero(Friction);
  }

  lemma ReboundSpeed(vy: real)
    requires -0.2267 <= vy <= -0.1666
    ensures 0.1 <= -Restitution * vy <= 0.16
  {
  }

  /** Without Magnus force and with drag (0, d, 0), the acceleration is
      vertical: gravity plus d / m. */
  lemma VerticalForces(magnus: Vec3, drag: Vec3, d: real)
    requires magnus == Zero && drag == Vec3(0.0, d, 0.0)
    ensures Add(Gravity, Scale(Add(magnus, drag), 1.0 / BallMass)) == Vec3(0.0, -9.8 + d * (1.0 / BallMass), 0.0)
  {
  }

  /** One velocity update of a purely vertical motion. */
  lemma VerticalFlight(v: Vec3, a: Vec3, u: real, ay: real, dt: real)
    requires v == Vec3(0.0, u, 0.0) && a == Vec3(0.0, ay, 0.0)
    ensures Add(v, Scale(a, dt)) == Vec3(0.0, u + ay * dt, 0.0)
  {
  }

  /** The drag on a ball moving straight up at speed u is -k u^2, straight
      down. */
  lemma HopDrag(lib: Lib, b: Ball)
    requires SqrtSpec(lib)
    requires HoppingBall(b)
    ensures DragForce(lib, b) == Vec3(0.0, b.velocity.y * (-DragCoefficient * b.velocity.y), 0.0)
  {
    UpwardSpeed(lib, b.velocity, b.velocity.y);
    DragOpposesMotion(lib, b);
  }

  /** The length of a vertical velocity (0, u, 0) with u >= 0 is u. */
  lemma UpwardSpeed(lib: Lib, v: Vec3, u: real)
    requires SqrtSpec(lib)
    requires v == Vec3(0.0, u, 0.0) && 0.0 <= u
    ensures Length(lib, v) == u
  {
    assert Dot(v, v) == u * u;
    SqrtOfSquare(lib, u);
  }

  /** The numbers of one hop: starting upwards at u in [0.1, 0.16], the
      velocity after a thirtieth of a second is between -0.2267 and -0.1666,
      so the ball ends the frame below the ground. */
  lemma HopArithmetic(u: real)
    requires 0.1 <= u <= 0.16
    ensures -0.2267 <= FallSpeed(u) <= -0.1666
  {
    SquareBounds(u);
    assert u * (-DragCoefficient * u) == -DragCoefficient * (u * u);
    assert -0.000256 <= u * (-DragCoefficient * u) <= -0.0001;
  }

  lemma SquareBounds(u: real)
    requires 0.1 <= u <= 0.16
    ensures 0.01 <= u * u <= 0.0256
  {
    assert 0.1 * u <= u * u <= 0.16 * u;
  }

  /** One frame of a hopping context at thirty frames per second: the
      flight does not end and the ball keeps hopping on the same spot. */
  lemma HopAgain(lib: Lib, ctx: Context, input: Input)
    requires SqrtSpec(lib)
    requires Hopping(ctx) && !InGoal(lib, ctx.ball) && !OutOfBounds(ctx.ball)
    ensures Hopping(Step(lib, ctx, input, FrameAt30Fps))
    ensures Step(lib, ctx, input, FrameAt30Fps).ball.position == ctx.ball.position
  {
    HopDrag(lib, ctx.ball);
    HopMove(lib, ctx.ball);
    var landed := Move(lib, ctx.ball, FrameAt30Fps);
    UpwardSpeed(lib, landed.velocity, landed.velocity.y);
  }

  /** At thirty frames per second a ball hopping in place, away from the
      goal and inside the field, keeps hopping on the same spot for ever:
      the stop check never fires, so the flight never ends and the game
      never reaches the reset state. */
  lemma {:induction false} HoppingNeverStops(lib: Lib, ctx: Context, frames: seq<Frame>)
    requires SqrtSpec(lib)
    requires Hopping(ctx) && !InGoal(lib, ctx.ball) && !OutOfBounds(ctx.ball)
    requires forall i :: 0 <= i < |frames| ==> frames[i].dt == FrameAt30Fps
    ensures Hopping(Run(lib, ctx, frames))
    ensures Run(lib, ctx, frames).ball.position == ctx.ball.position
    decreases |frames|
  {
    var n := |frames|;
    if n > 0 {
      var prefix := frames[..n - 1];
      assert forall i :: 0 <= i < |prefix| ==> prefix[i] == frames[i];
      HoppingNeverStops(lib, ctx, prefix);
      var before := Run(lib, ctx, prefix);
      assert InGoal(lib, before.ball) == InGoal(lib, ctx.ball);
      HopAgain(lib, before, frames[n - 1].input);
    }
  }
}

=== FILE: vectors.dfy ===
/** Three-component vectors over the reals and the raymath operations the
    simulation applies to them (Vector3Add, Vector3Scale, Vector3Negate,
    Vector3CrossProduct, Vector3Zero). Single-precision floats are modelled
    as unbounded reals, so no rounding happens anywhere in this model. */
module Vectors {

  datatype Vec3 = Vec3(x: real, y: real, z: real)

  const Zero: Vec3 := Vec3(0.0, 0.0, 0.0)

  function Add(a: Vec3, b: Vec3): Vec3 {
    Vec3(a.x + b.x, a.y + b.y, a.z + b.z)
  }

  function Scale(v: Vec3, k: real): Vec3 {
    Vec3(v.x * k, v.y * k, v.z * k)
  }

  function Negate(v: Vec3): Vec3 {
    Vec3(-v.x, -v.y, -v.z)
  }

  function Dot(a: Vec3, b: Vec3): real {
    a.x * b.x + a.y * b.y + a.z * b.z
  }

  /** Right-handed cross product; it vanishes when either factor does. */
  function Cross(a: Vec3, b: Vec3): (r: Vec3)
    ensures a == Zero || b == Zero ==> r == Zero
  {
    Vec3(a.y * b.z - a.z * b.y, a.z * b.x - a.x * b.z, a.x * b.y - a.y * b.x)
  }

  /** The cross product is orthogonal to both factors. */
  lemma CrossOrthogonal(a: Vec3, b: Vec3)
    ensures Dot(Cross(a, b), a) == 0.0 && Dot(Cross(a, b), b) == 0.0
  {
  }

  lemma ScaleZero(k: real)
    ensures Scale(Zero, k) == Zero
  {
  }

  /** Dot products are linear in a scaled factor. */
  lemma DotScale(c: Vec3, k: real, v: Vec3)
    ensures Dot(Scale(c, k), v) == k * Dot(c, v)
  {
  }

  /** A product is zero only when one of its factors is. */
  lemma ProductZero(p: real, q: real)
    requires p * q == 0.0
    ensures p == 0.0 || q == 0.0
  {
    if p != 0.0 {
      assert q == (p * q) / p;
    }
  }

  /** The squared length is a sum of squares: never negative, and zero
      exactly for the zero vector. */
  lemma DotSelf(v: Vec3)
    ensures Dot(v, v) >= 0.0
    ensures Dot(v, v) == 0.0 <==> v == Zero
  {
    var (xx, yy, zz) := (v.x * v.x, v.y * v.y, v.z * v.z);
    SquareNonNegative(v.x);
    SquareNonNegative(v.y);
    SquareNonNegative(v.z);
    assert Dot(v, v) == xx + yy + zz;
    if xx + yy + zz == 0.0 {
      assert xx == 0.0 && yy == 0.0 && zz == 0.0;
      ProductZero(v.x, v.x);
      ProductZero(v.y, v.y);
      ProductZero(v.z, v.z);
    }
  }

  lemma SquareNonNegative(a: real)
    ensures a * a >= 0.0
  {
    if a < 0.0 {
      assert a * a == (-a) * (-a);
    }
  }
}
